=== FILE: README.md ===
# ng-bootstrap modal stack, modelled in Dafny

This project models `NgbModalStack` from ng-bootstrap (`src/modal/modal-stack.ts`).
That is the service behind `NgbModal.open`. It finds the container element and
turns the `content` argument into projectable nodes. It then mounts an optional
backdrop and the modal window into the container and builds the `NgbModalRef`.
Next it tries to trap keyboard focus inside the window, wires the active
modal's `close`/`dismiss`, and copies the caller's defined window options onto
the window component.

The model is purely functional:

- **Values and options** (`JsValues`). JavaScript values keep only the
  distinctions the stack makes: truthiness, `isDefined`, `isString` and
  `instanceof TemplateRef`. An options object is a `map<string, Value>`, and a
  missing property reads as `undefined`.
- **Collaborators as an effect trace** (`Host`). Each call `open` makes into
  the rendering engine, the document or the focus-trap utility is recorded as
  an `Effect`:
  - view creation, `attachView` and `appendChild`;
  - trap construction, activation and deactivation;
  - forwarding to the modal reference.

  `Open` returns the whole trace together with its result. Ordering
  properties are stated on projections of the trace (`Filter`).
- **Environment** (`ModalStack.Env`). Everything `open` reads from the outside
  is a parameter:
  - `document.querySelector`, as a finite map from selector to element;
  - the components the caller's factory resolver knows;
  - the global `focusTrap`. It may be never declared, in which case reading it
    throws a `ReferenceError`. It may be declared but falsy. Otherwise it is an
    oracle that says, for the plain attempt and the `fallbackFocus` attempt,
    whether construction throws, whether `activate()` throws, and whether the
    trap has `deactivate`;
  - the window component's initial fields;
  - the identity of the `NgbActiveModal` that `open` creates. Templates are
    instantiated with it as context, and content components are given it by
    their injector;
  - the next unused view id. View ids are handed out in creation order.
- **Modules.**
  - `ContentRefs` models `_getContentRef`.
  - `WindowOptions` models `_applyWindowOptions`.
  - `FocusGuard` models the focus-trap try/catch chain and the release
    condition.
  - `ModalStack` models `open` itself (`Open`, built from `Assemble`) and the
    close/dismiss wiring (`Settle`).

Five behaviours of the code are easy to misread. The model follows the code in
all of them:

- The second focus-trap attempt, the one with `fallbackFocus`, runs when the
  first construction throws. It also runs when the first trap's `activate()`
  throws, because both calls share one `try` block.
- `focusTrapReference` is assigned each time a construction returns. Suppose
  the first trap is constructed but its activation throws, and then the second
  construction throws. The modal then keeps the first trap, which was never
  activated, and `close`/`dismiss` will still call `deactivate` on it.
  `FocusGuard.StoredIsLastConstructed` states this exactly.
- Only the active modal's `close`/`dismiss` closures release the trap. Calling
  `close`/`dismiss` on the `NgbModalRef` directly forwards nothing back and
  leaves the trap active.
- Each call of the active modal's `close`/`dismiss` tests the release
  condition afresh. Repeated calls therefore call `deactivate` again. `Settle`
  describes a single call.
- `focusTrap` is only declared for the type checker. When the script that
  defines it is absent, `if (focusTrap)` throws a `ReferenceError` after the
  backdrop and the window are already mounted. `open` then fails with
  `FocusTrapUndeclared`, leaving the window and, if wanted, the backdrop in the container.

## Model

| member | source | states |
|---|---|---|
| ContentRefs.GetContentRef | src/modal/modal-stack.ts:111-130 | The branches are examined in order: falsy content, template, string, then component. Falsy content, the empty string included, projects no node group and has no effect. A template projects one group holding its view's root nodes, in order. Its effects are the creation of an embedded view from that template, with the active modal as context, followed by the attachment of that view. A string projects one text node, owns no view and has no effect. A component projects its host element. Its effects are the creation of its host view, with the active modal injected, followed by the attachment of that view. Content fails exactly when it is a component with no factory, and then before any view exists. Every result uses fresh view ids. |
| ContentRefs.TemplateContentRef | src/modal/modal-stack.ts:116-119 | A template is instantiated as a new embedded view with the active modal as its context. That view is then attached, and nothing else happens. Its root nodes, in order, are the single projected group. |
| ContentRefs.ComponentContentRef | src/modal/modal-stack.ts:122-128 | A component content is created as a new host view whose injector provides the active modal. That view is then attached, and nothing else happens. Its host element is the single projected node, and the content reference keeps both the view and the component. |
| Host.Mount | src/modal/modal-stack.ts:50-56 | Mounting a backdrop or window creates exactly that view, then attaches exactly that view, then appends exactly its host element to the container, in that order. |
| ModalStack.ContainerSelector | src/modal/modal-stack.ts:34 | The selector is always truthy. It is the caller's `container` option when that option is truthy, and `'body'` otherwise. |
| ModalStack.Open | src/modal/modal-stack.ts:33-101 | `open` succeeds exactly when the container selector matches an element, the content resolves and `focusTrap` is declared. The errors come in source order: first a missing container, naming the selector; then content without a component factory; then the `ReferenceError` of an undeclared `focusTrap`. The first two leave no effect and allocate no view. On success, the modal lives in the matched container and its active modal is the one created for this call. Each window field equals the caller's option when it is one of the four window options and is defined, and the window's own value otherwise. |
| ModalStack.OpenMountsBackdropBeforeWindow | src/modal/modal-stack.ts:49-56 | A backdrop exists exactly when the `backdrop` option is not `false`. The only elements appended to the container are the backdrop's element, if any, and then the window's element. The two are distinct elements. |
| ModalStack.OpenCreatesWindowOnce | src/modal/modal-stack.ts:49-56 | The only surfaces created are the optional backdrop and then exactly one window. The window projects exactly the resolved content's node groups. |
| ModalStack.OpenAttachesViews | src/modal/modal-stack.ts:42-56 | The views attached are, in order, the content's own view (template or component content only), the backdrop's and the window's. So the number of attachments is 1 + backdrop + owned content view. |
| ModalStack.OpenAttachesContentFirst | src/modal/modal-stack.ts:42-56 | The content's view is attached before any backdrop or window is created. |
| ModalStack.OpenSetsUpFocusTrap | src/modal/modal-stack.ts:60-83 | A falsy `focusTrap` constructs and activates no trap. Otherwise there is a plain construction on the window's element. It is followed by one with `fallbackFocus` on the same element, unless the plain trap was constructed and activated. Every trap whose construction returned is activated, the plain one before the fallback one. The active modal keeps the trap of the last construction that returned. |
| ModalStack.OpenMountOrder | src/modal/modal-stack.ts:42-83 | `open` goes through its phases in order and never returns to an earlier one. First come the content's effects. Then the backdrop is created, attached and appended. Then the window is created, attached and appended. The focus-trap effects come last. |
| ModalStack.OpenThrowsAfterMounting | src/modal/modal-stack.ts:49-61 | When `focusTrap` was never declared, `open` fails with the `ReferenceError`. By then the backdrop, if wanted, and the window have been appended to the container, in that order. No trap was constructed. |
| ModalStack.OpenBindsContent | src/modal/modal-stack.ts:111-128 | The content is bound to the same active modal that `open` returns. A template's view is created with it as context, and a content component is created with it injected. |
| ModalStack.Assemble | src/modal/modal-stack.ts:49-100 | Once the container and content are in place, the rest of `open` fails exactly when `focusTrap` is undeclared, and then with that error. Otherwise it returns the modal in the given container, with the allocated layout and the active modal created for this call. The views of both surfaces are allocated either way. |
| ModalStack.Layout | src/modal/modal-stack.ts:49-58 | The modal reference keeps the resolved content. It has a backdrop exactly when `options.backdrop !== false`, and the backdrop's view comes before the window's. Both views are fresh. |
| ModalStack.Surfaces | src/modal/modal-stack.ts:49-56 | Mounting the surfaces appends the backdrop's element, if any, and then the window's. It creates the backdrop, if any, and then the window projecting the content's nodes. It attaches the backdrop's view, if any, and then the window's. It constructs no trap. |
| ModalStack.WantsBackdrop | src/modal/modal-stack.ts:49 | Only a literal `false` suppresses the backdrop. A missing option, `null`, `0`, `NaN` and the empty string still ask for one. |
| ModalStack.OpenUsesFreshViews | src/modal/modal-stack.ts:42-56 | Every view `open` creates or attaches has an id it allocated, between the environment's next id and the next id it returns. Modals opened one after another therefore own disjoint views. |
| ModalStack.Settle | src/modal/modal-stack.ts:85-96 | `close` and `dismiss` always forward to the modal reference first. They then deactivate the stored trap exactly when `focusTrap` is truthy at that moment and the stored trap has `deactivate`. |
| ModalStack.OpenWiresSettle | src/modal/modal-stack.ts:60-96 | Consider a modal produced by `open`. Closing or dismissing it first forwards to the modal reference. It deactivates a trap only if `focusTrap` was truthy at `open`. It does so exactly when `focusTrap` is still truthy and the last construction during `open` that returned a trap left one with `deactivate`. The trap deactivated is that last one, and it was built on the window's element. |
| ModalStack.AssembleStoresLastTrap | src/modal/modal-stack.ts:60-83 | Once the content and surfaces are in place, the trap the active modal keeps is the last construction in the whole trace that returned. |
| FocusGuard.SetupFocusTrap | src/modal/modal-stack.ts:60-83 | An exception escapes exactly when `focusTrap` was never declared. Then, as with a falsy `focusTrap`, nothing is done and nothing is stored. Otherwise setup only constructs and activates traps, and every construction is on the given root. |
| FocusGuard.SetupConstructions | src/modal/modal-stack.ts:61-76 | There are no constructions unless `focusTrap` is truthy. There is one when the plain trap is constructed and activated. Otherwise the plain construction is followed by exactly one `fallbackFocus` construction. |
| FocusGuard.SetupActivations | src/modal/modal-stack.ts:62-76 | `activate()` is called exactly on the traps whose construction returned: the plain trap, then the `fallbackFocus` trap when that attempt ran. A falsy or undeclared `focusTrap` activates nothing. |
| FocusGuard.AttemptTrace | src/modal/modal-stack.ts:63-65 | One attempt constructs a trap on the root. It activates that trap exactly when the construction returned, and does nothing else. |
| FocusGuard.Releases | src/modal/modal-stack.ts:87 | Nothing is released once `focusTrap` is falsy or when no trap was stored. A stored trap without `deactivate` is never released. |
| ContentRefs.Shape | src/modal/modal-stack.ts:114-122 | A template is always template content, since it is never falsy. Exactly the non-empty strings are text. Exactly the falsy values are no content. Every other truthy value, numbers and arbitrary objects included, goes to the component factory. |
| FocusGuard.ActivateFollowsConstruct | src/modal/modal-stack.ts:63-65 | `activate()` is only called on a trap constructed immediately before, and only when that construction returned. |
| FocusGuard.StoredIsLastConstructed | src/modal/modal-stack.ts:60-83 | The stored `focusTrapReference` equals the trap of the last construction in the setup trace that did not throw. This includes the case where a constructed but never-activated first trap is kept. |
| FocusGuard.StoredWasConstructed | src/modal/modal-stack.ts:60-83 | A stored trap was built by a construction that appears in the trace on the given root. Its `deactivate` member is the one that construction returned. |
| FocusGuard.TrapWorksIffSomeAttemptActivates | src/modal/modal-stack.ts:60-83 | The stored trap is an activated one exactly when the plain or the `fallbackFocus` attempt fully succeeds. |
| WindowOptions.CopyDefined | src/modal/modal-stack.ts:104-108 | Visiting the option names in order leaves each field equal to the option whenever the name was visited and the option is defined, and to the window's own value otherwise. Exactly the defined visited options are added as keys. |
| WindowOptions.ApplyWindowOptions | src/modal/modal-stack.ts:103-109 | A defined `backdrop`, `keyboard`, `size` or `windowClass` option overwrites the window's field. An undefined (`undefined` or `null`) option and every other field leave the window's value. |
| WindowOptions.ApplyWindowOptionsIdempotent | src/modal/modal-stack.ts:103-109 | Applying the same options twice gives the same window as applying them once. |

## Left out

- The Angular injector, `ReflectiveInjector` and the component factory internals are left out. Creating a view is one `Create` effect with a fresh id, and a factory resolver is the set of component names it knows.
- The backdrop and window factories resolved in the constructor (lines 29-30) are assumed to exist. They become the constant component names `NgbModalBackdrop` and `NgbModalWindow`.
- The DOM is left out. `document.querySelector` is a finite map from selector value to element, with no selector syntax and no coercion of non-string selectors. `appendChild` is an `Append` effect. `document.createTextNode` is a `TextNode` carrying the string. A syntactically invalid selector makes `document.querySelector` (line 35) throw a `SyntaxError` before the element is tested. The model has no selector syntax, so it reports `ContainerNotFound` for such a selector, or matches it when the map has an entry for it.
- The `escapeDeactivates`/`clickOutsideDeactivates` options and the `fallbackFocus` value (`querySelectorAll('[tabindex]')[0]`) are left out. The second construction is simply the `fallbackFocus` attempt, and how it behaves is part of the focus-trap oracle.
- The `console.warn`/`console.error` diagnostics are left out, because they have no effect on the modal.
- The behaviour of `NgbModalRef.close`/`dismiss` is left out. `modal-ref.ts` is not part of this model, so forwarding is one `ForwardToRef` effect.
- The `NgbModalWindow` defaults are left out. `modal-window.ts` is not part of this model, so the window's initial fields are a parameter.
- Numbers are left out except for zero versus non-zero and `NaN`. `-0` is folded into `0`, which is all that truthiness needs.
- ModalStack.Settle: the active modal's `close`/`dismiss` on a `focusTrap` that was deleted after `open` throws a `ReferenceError` after forwarding. The effects are the same, and the exception itself is not modelled.
- `isDefined` comes from `util.ts`, which is not part of this model. It is taken to mean "neither `undefined` nor `null`".

=== FILE: content_ref.dfy ===
/**
 * `_getContentRef`: the normalisation of the `content` argument of `open`
 * into the node groups projected into the window, together with the view the
 * modal then owns.
 */
module ContentRefs {
  import opened Results
  import opened JsValues
  import opened Host

  /** A created component: its host view and the component it renders. */
  datatype ComponentRef = ComponentRef(hostView: ViewId, component: string) {
    /** `location.nativeElement`. */
    function Location(): Node { HostElement(hostView) }
  }

  /**
   * What is projected into the window (`nodes`), the view to detach on
   * teardown, and, for component content, the component itself.
   */
  datatype ContentRef = ContentRef(
    nodes: seq<seq<Node>>,
    viewRef: Option<ViewId>,
    componentRef: Option<ComponentRef>)

  /** The four branches of `_getContentRef`, examined in this order. */
  datatype ContentShape = NoContent | TemplateContent | TextContent | ComponentContent

  function Shape(content: Value): (s: ContentShape)
    // a template is an object, so never falsy
    ensures s == TemplateContent <==> content.Template?
    // the empty string is falsy and projects nothing; every other string is text
    ensures s == TextContent <==> content.Str? && content.s != ""
    ensures s == NoContent <==> !Truthy(content)
    // whatever is left goes to the component factory, numbers and other objects included
    ensures s == ComponentContent <==> Truthy(content) && !content.Template? && !content.Str?
  {
    if !Truthy(content) then NoContent
    else if content.Template? then TemplateContent
    else if IsString(content) then TextContent
    else ComponentContent
  }

  /** `moduleCFR.resolveComponentFactory(content)` finds a factory. */
  predicate CanResolve(resolver: set<string>, content: Value) {
    content.ComponentType? && content.name in resolver
  }

  /** The view that owns a node; text nodes belong to no view. */
  function Owner(n: Node): Option<ViewId> {
    match n
    case TextNode(_) => None
    case HostElement(v) => Some(v)
    case TemplateRoot(v, _) => Some(v)
  }

  /** The content, the effects performed to build it, and the next unused view id. */
  datatype Resolved = Resolved(ref: ContentRef, trace: seq<Effect>, next: ViewId)

  /** What every resolved content satisfies, whatever its shape. */
  predicate WellFormed(r: Resolved, next: ViewId) {
    var c := r.ref;
    // every projected node belongs to the owned view (text nodes to none)
    && (forall g, n | g in c.nodes && n in g :: Owner(n) == c.viewRef)
    // the owned view, and only it, is attached; nothing is appended, mounted or trapped
    && Filter(r.trace, IsAttach) == (if c.viewRef.Some? then [Attach(c.viewRef.value)] else [])
    && Filter(r.trace, IsAppend) == []
    && Filter(r.trace, IsSurfaceCreate) == []
    && Filter(r.trace, IsTrapConstruct) == []
    // nothing but view creation and attachment happens
    && (forall e | e in r.trace :: e.Create? || e.Attach?)
    // views are created with fresh ids only
    && (c.viewRef.Some? ==> next <= c.viewRef.value < r.next)
    && (forall e | e in r.trace && e.Create? :: next <= e.view.id < r.next)
    && (c.viewRef.None? ==> r.next == next)
  }

  /** `createEmbeddedView` with the active modal as context, then `attachView`. */
  function TemplateContentRef(template: TemplateRef, context: ModalId, next: ViewId): (r: Resolved)
    ensures WellFormed(r, next)
    ensures |r.ref.nodes| == 1 && |r.ref.nodes[0]| == template.rootCount
    ensures r.ref.viewRef.Some? && r.ref.componentRef.None?
    // the single group is the view's root nodes, in order
    ensures forall i | 0 <= i < template.rootCount :: r.ref.nodes[0][i] == TemplateRoot(r.ref.viewRef.value, i)
    // the owned view is created from the template, bound to the context, and then attached
    ensures r.trace == [Create(EmbeddedView(r.ref.viewRef.value, template, context)), Attach(r.ref.viewRef.value)]
  {
    var t := [Create(EmbeddedView(next, template, context)), Attach(next)];
    var nodes := seq(template.rootCount, (i: nat) => TemplateRoot(next, i));
    FilterTwo(t, IsAttach);
    FilterTwo(t, IsAppend);
    FilterTwo(t, IsSurfaceCreate);
    FilterTwo(t, IsTrapConstruct);
    Resolved(ContentRef([nodes], Some(next), None), t, next + 1)
  }

  /** A component created through a child injector providing the active modal, then attached. */
  function ComponentContentRef(name: string, context: ModalId, next: ViewId): (r: Resolved)
    ensures WellFormed(r, next)
    ensures r.ref.viewRef.Some? && r.ref.componentRef.Some?
    ensures r.ref.componentRef.value.hostView == r.ref.viewRef.value
    ensures r.ref.componentRef.value.component == name
    ensures r.ref.nodes == [[r.ref.componentRef.value.Location()]]
    // the owned view is created for the component with the context injected, and then attached
    ensures r.trace == [Create(HostView(r.ref.viewRef.value, ContentComponent(name, context))), Attach(r.ref.viewRef.value)]
  {
    var cmpt := ComponentRef(next, name);
    var t := [Create(HostView(next, ContentComponent(name, context))), Attach(next)];
    var nodes := [[HostElement(next)]];
    assert forall g, n | g in nodes && n in g :: n == HostElement(next);
    FilterTwo(t, IsAttach);
    FilterTwo(t, IsAppend);
    FilterTwo(t, IsSurfaceCreate);
    FilterTwo(t, IsTrapConstruct);
    Resolved(ContentRef(nodes, Some(next), Some(cmpt)), t, next + 1)
  }

  /**
   * Content resolution with fresh view ids drawn from `next`. Only component
   * content can fail, and then before any view is created.
   */
  function GetContentRef(resolver: set<string>, content: Value, context: ModalId, next: ViewId): (r: Result<Resolved, OpenError>)
    ensures r.Err? <==> Shape(content) == ComponentContent && !CanResolve(resolver, content)
    ensures r.Err? ==> r.error == NoComponentFactory(content)
    ensures r.Ok? ==> WellFormed(r.value, next)
    // falsy content, the empty string included, projects nothing; every other shape one group
    ensures r.Ok? ==> |r.value.ref.nodes| == if Shape(content) == NoContent then 0 else 1
    // a view is owned exactly for template and component content
    ensures r.Ok? ==> (r.value.ref.viewRef.Some? <==> Shape(content) in {TemplateContent, ComponentContent})
    ensures r.Ok? ==> (r.value.ref.componentRef.Some? <==> Shape(content) == ComponentContent)
    ensures r.Ok? && Shape(content) == TextContent ==> r.value.ref.nodes == [[TextNode(content.s)]]
    ensures r.Ok? && Shape(content) == TemplateContent ==>
              && |r.value.ref.nodes[0]| == content.template.rootCount
              && forall i | 0 <= i < content.template.rootCount ::
                   r.value.ref.nodes[0][i] == TemplateRoot(r.value.ref.viewRef.value, i)
    ensures r.Ok? && Shape(content) == ComponentContent ==>
              r.value.ref.nodes == [[HostElement(r.value.ref.viewRef.value)]]
    // effects: none without an owned view; otherwise its creation, bound to the context, then its attachment
    ensures r.Ok? && r.value.ref.viewRef.None? ==> r.value.trace == []
    ensures r.Ok? && Shape(content) == TemplateContent ==>
              r.value.trace == [Create(EmbeddedView(r.value.ref.viewRef.value, content.template, context)),
                                Attach(r.value.ref.viewRef.value)]
    ensures r.Ok? && Shape(content) == ComponentContent ==>
              r.value.trace == [Create(HostView(r.value.ref.viewRef.value, ContentComponent(content.name, context))),
                                Attach(r.value.ref.viewRef.value)]
  {
    match Shape(content)
    case NoContent => Ok(Resolved(ContentRef([], None, None), [], next))
    case TemplateContent => Ok(TemplateContentRef(content.template, context, next))
    case TextContent => Ok(Resolved(ContentRef([[TextNode(content.s)]], None, None), [], next))
    case ComponentContent =>
      if CanResolve(resolver, content) then Ok(ComponentContentRef(content.name, context, next))
      else Err(NoComponentFactory(content))
  }

  lemma FilterTwo(t: seq<Effect>, p: Effect -> bool)
    requires |t| == 2
    ensures Filter(t, p) == (if p(t[0]) then [t[0]] else []) + (if p(t[1]) then [t[1]] else [])
  {
    assert t[1..] == [t[1]];
    FilterSingle(t[1], p);
  }
}

=== FILE: focus_guard.dfy ===
/**
 * Focus-trap setup in `open` and the release condition used by the active
 * modal's close and dismiss. The focus-trap utility is an oracle: for each
 * of the two possible constructions it says whether constructing throws,
 * whether `activate()` then throws, and whether the returned trap has a
 * `deactivate` member.
 */
module FocusGuard {
  import opened Results
  import opened Host

  datatype TrapBehaviour =
    | ConstructThrows
    | ActivateThrows(hasDeactivate: bool)
    | Activates(hasDeactivate: bool)
  {
    /** `focusTrap(…)` returned a trap, which is then stored in `focusTrapReference`. */
    predicate Constructs() { !ConstructThrows? }
  }

  /**
   * The global `focusTrap`: never declared (reading it throws a
   * `ReferenceError`), declared but falsy, or a library that behaves as given
   * on each attempt.
   */
  datatype FocusTrapLib =
    | Undeclared
    | Missing
    | Present(plain: TrapBehaviour, withFallback: TrapBehaviour)
  {
    function Behaviour(a: Attempt): TrapBehaviour
      requires Present?
    {
      match a
      case Plain => plain
      case WithFallback => withFallback
    }
  }

  /** The value of `focusTrapReference`: the trap built by an attempt. */
  datatype TrapRef = TrapRef(attempt: Attempt, hasDeactivate: bool)

  /** The effects of the setup, the reference it leaves, and whether an exception escaped it. */
  datatype TrapSetup = TrapSetup(trace: seq<Effect>, stored: Option<TrapRef>, thrown: bool)

  /**
   * Reference semantics of `focusTrapReference`: it is assigned each time a
   * construction returns, so after the effects `t` it holds the trap of the
   * last construction in `t` that did not throw.
   */
  function LastConstructed(lib: FocusTrapLib, t: seq<Effect>): Option<TrapRef>
    requires lib.Present?
  {
    if t == [] then None
    else
      var e := t[|t| - 1];
      if e.TrapConstruct? && lib.Behaviour(e.attempt).Constructs() then
        Some(TrapRef(e.attempt, lib.Behaviour(e.attempt).hasDeactivate))
      else LastConstructed(lib, t[..|t| - 1])
  }

  /**
   * Whatever happened before the setup, as long as it constructed no trap,
   * the reference kept afterwards is the last construction that returned.
   */
  lemma StoredAfter(lib: FocusTrapLib, before: seq<Effect>, root: Node)
    requires lib.Present?
    requires Filter(before, IsTrapConstruct) == []
    ensures LastConstructed(lib, before + SetupFocusTrap(lib, root).trace) == SetupFocusTrap(lib, root).stored
  {
    var s := SetupFocusTrap(lib, root);
    StoredIsLastConstructed(lib, root);
    if s.stored.Some? {
      LastConstructedSuffix(lib, before, s.trace);
    } else {
      FilterMembers(before, IsTrapConstruct);
      assert forall e | e in before + s.trace :: e in before || e in s.trace;
      LastConstructedNone(lib, before + s.trace);
    }
  }

  /** A suffix holding a successful construction decides `LastConstructed`. */
  lemma {:induction false} LastConstructedSuffix(lib: FocusTrapLib, before: seq<Effect>, after: seq<Effect>)
    requires lib.Present? && LastConstructed(lib, after).Some?
    ensures LastConstructed(lib, before + after) == LastConstructed(lib, after)
  {
    var t := before + after;
    assert t[|t| - 1] == after[|after| - 1];
    var e := after[|after| - 1];
    if !(e.TrapConstruct? && lib.Behaviour(e.attempt).Constructs()) {
      assert t[..|t| - 1] == before + after[..|after| - 1];
      LastConstructedSuffix(lib, before, after[..|after| - 1]);
    }
  }

  /** With no construction that returned, no trap is stored. */
  lemma {:induction false} LastConstructedNone(lib: FocusTrapLib, t: seq<Effect>)
    requires lib.Present?
    requires forall e | e in t && e.TrapConstruct? :: !lib.Behaviour(e.attempt).Constructs()
    ensures LastConstructed(lib, t) == None
  {
    if t != [] {
      assert t[|t| - 1] in t;
      assert forall e | e in t[..|t| - 1] :: e in t;
      LastConstructedNone(lib, t[..|t| - 1]);
    }
  }

  /** One attempt: construct on `root`, and activate if construction returned. */
  function AttemptTrace(lib: FocusTrapLib, a: Attempt, root: Node): (t: seq<Effect>)
    requires lib.Present?
    ensures |t| == if lib.Behaviour(a).Constructs() then 2 else 1
    ensures t[0] == TrapConstruct(a, root)
    ensures |t| == 2 ==> t[1] == TrapActivate(a)
  {
    [TrapConstruct(a, root)] + if lib.Behaviour(a).Constructs() then [TrapActivate(a)] else []
  }

  /**
   * The try/catch chain of `open`: skipped when `focusTrap` is falsy;
   * otherwise a plain attempt and, only if its construction or activation
   * threw, one attempt with `fallbackFocus`. The only exception that reaches
   * the caller is the one from testing an undeclared global.
   */
  function SetupFocusTrap(lib: FocusTrapLib, root: Node): (s: TrapSetup)
    ensures s.thrown <==> lib.Undeclared?
    ensures !lib.Present? ==> s.trace == [] && s.stored.None?
    ensures forall e | e in s.trace :: IsTrapEffect(e)
    ensures forall e | e in s.trace && e.TrapConstruct? :: e.root == root
  {
    match lib
    case Undeclared => TrapSetup([], None, true)
    case Missing => TrapSetup([], None, false)
    case Present(plain, withFallback) =>
      var first := AttemptTrace(lib, Plain, root);
      var stored := if plain.Constructs() then Some(TrapRef(Plain, plain.hasDeactivate)) else None;
      if plain.Activates? then TrapSetup(first, stored, false)
      else
        var second := AttemptTrace(lib, WithFallback, root);
        var stored' := if withFallback.Constructs() then Some(TrapRef(WithFallback, withFallback.hasDeactivate)) else stored;
        TrapSetup(first + second, stored', false)
  }

  /** Focus-trap setup creates, attaches and appends nothing. */
  lemma SetupOnlyTraps(lib: FocusTrapLib, root: Node)
    ensures Filter(SetupFocusTrap(lib, root).trace, IsAttach) == []
    ensures Filter(SetupFocusTrap(lib, root).trace, IsAppend) == []
    ensures Filter(SetupFocusTrap(lib, root).trace, IsSurfaceCreate) == []
  {
    var t := SetupFocusTrap(lib, root).trace;
    FilterNone(t, IsAttach);
    FilterNone(t, IsAppend);
    FilterNone(t, IsSurfaceCreate);
  }

  /** At most two constructions, both on `root`; the second only after the first failed. */
  lemma {:induction false} SetupConstructions(lib: FocusTrapLib, root: Node)
    ensures Filter(SetupFocusTrap(lib, root).trace, IsTrapConstruct) ==
              if !lib.Present? then []
              else if lib.plain.Activates? then [TrapConstruct(Plain, root)]
              else [TrapConstruct(Plain, root), TrapConstruct(WithFallback, root)]
  {
    if lib.Present? {
      FilterAttempt(lib, Plain, root);
      if !lib.plain.Activates? {
        FilterAttempt(lib, WithFallback, root);
        FilterAppend(AttemptTrace(lib, Plain, root), AttemptTrace(lib, WithFallback, root), IsTrapConstruct);
      }
    }
  }

  /**
   * Every trap whose construction returned is activated: the plain one, and
   * the one with `fallbackFocus` when that attempt ran.
   */
  lemma {:induction false} SetupActivations(lib: FocusTrapLib, root: Node)
    ensures Filter(SetupFocusTrap(lib, root).trace, IsTrapActivate) ==
              if !lib.Present? then []
              else (if lib.plain.Constructs() then [TrapActivate(Plain)] else [])
                   + (if !lib.plain.Activates? && lib.withFallback.Constructs() then [TrapActivate(WithFallback)] else [])
  {
    if lib.Present? {
      FilterAttempt(lib, Plain, root);
      if !lib.plain.Activates? {
        FilterAttempt(lib, WithFallback, root);
        FilterAppend(AttemptTrace(lib, Plain, root), AttemptTrace(lib, WithFallback, root), IsTrapActivate);
      }
    }
  }

  /** `activate()` is only ever called on the trap constructed just before it. */
  lemma ActivateFollowsConstruct(lib: FocusTrapLib, root: Node)
    ensures var t := SetupFocusTrap(lib, root).trace;
      forall i | 0 <= i < |t| && t[i].TrapActivate? ::
        0 < i && t[i - 1] == TrapConstruct(t[i].attempt, root)
        && lib.Present? && lib.Behaviour(t[i].attempt).Constructs()
  {
    if lib.Present? {
      var first := AttemptTrace(lib, Plain, root);
      if !lib.plain.Activates? {
        var second := AttemptTrace(lib, WithFallback, root);
        var t := first + second;
        forall i | 0 <= i < |t| && t[i].TrapActivate?
          ensures 0 < i && t[i - 1] == TrapConstruct(t[i].attempt, root)
                  && lib.Behaviour(t[i].attempt).Constructs()
        {
          if i >= |first| {
            assert t[i] == second[i - |first|];
          }
        }
      }
    }
  }

  lemma FilterAttempt(lib: FocusTrapLib, a: Attempt, root: Node)
    requires lib.Present?
    ensures Filter(AttemptTrace(lib, a, root), IsTrapConstruct) == [TrapConstruct(a, root)]
    ensures Filter(AttemptTrace(lib, a, root), IsTrapActivate) ==
              if lib.Behaviour(a).Constructs() then [TrapActivate(a)] else []
  {
    var t := AttemptTrace(lib, a, root);
    assert t == [t[0]] + t[1..];
    FilterAppend([t[0]], t[1..], IsTrapConstruct);
    FilterAppend([t[0]], t[1..], IsTrapActivate);
    FilterSingle(t[0], IsTrapConstruct);
    FilterSingle(t[0], IsTrapActivate);
    if |t| == 2 {
      assert t[1..] == [t[1]];
      FilterSingle(t[1], IsTrapConstruct);
      FilterSingle(t[1], IsTrapActivate);
    }
  }

  /** The stored reference is the trap of the last construction that returned. */
  lemma {:induction false} StoredIsLastConstructed(lib: FocusTrapLib, root: Node)
    requires lib.Present?
    ensures SetupFocusTrap(lib, root).stored == LastConstructed(lib, SetupFocusTrap(lib, root).trace)
  {
    var first := AttemptTrace(lib, Plain, root);
    LastConstructedAttempt(lib, [], Plain, root);
    assert [] + first == first;
    if !lib.plain.Activates? {
      LastConstructedAttempt(lib, first, WithFallback, root);
    }
  }

  lemma {:induction false} LastConstructedAttempt(lib: FocusTrapLib, before: seq<Effect>, a: Attempt, root: Node)
    requires lib.Present?
    ensures LastConstructed(lib, before + AttemptTrace(lib, a, root)) ==
              if lib.Behaviour(a).Constructs() then Some(TrapRef(a, lib.Behaviour(a).hasDeactivate))
              else LastConstructed(lib, before)
  {
    var t := before + AttemptTrace(lib, a, root);
    if lib.Behaviour(a).Constructs() {
      var u := before + [TrapConstruct(a, root)];
      assert t[..|t| - 1] == u;
      assert u[..|u| - 1] == before;
    } else {
      assert t[..|t| - 1] == before;
    }
  }

  /** A stored trap was built by one of the constructions made, on `root`. */
  lemma StoredWasConstructed(lib: FocusTrapLib, root: Node)
    ensures var s := SetupFocusTrap(lib, root);
      s.stored.Some? ==>
        && lib.Present?
        && TrapConstruct(s.stored.value.attempt, root) in s.trace
        && lib.Behaviour(s.stored.value.attempt).Constructs()
        && s.stored.value.hasDeactivate == lib.Behaviour(s.stored.value.attempt).hasDeactivate
  {
    if lib.Present? && !lib.plain.Activates? {
      assert SetupFocusTrap(lib, root).trace == AttemptTrace(lib, Plain, root) + AttemptTrace(lib, WithFallback, root);
      assert AttemptTrace(lib, WithFallback, root)[0] in SetupFocusTrap(lib, root).trace;
    }
  }

  /**
   * The modal ends up with a working trap (the stored trap's `activate()`
   * returned) exactly when one of the two attempts fully succeeds.
   */
  lemma TrapWorksIffSomeAttemptActivates(lib: FocusTrapLib, root: Node)
    ensures var s := SetupFocusTrap(lib, root);
      (s.stored.Some? && lib.Present? && lib.Behaviour(s.stored.value.attempt).Activates?) <==>
      (lib.Present? && (lib.plain.Activates? || lib.withFallback.Activates?))
  {
  }

  /** `focusTrap && focusTrapReference && focusTrapReference.deactivate`. */
  predicate Releases(focusTrapTruthy: bool, stored: Option<TrapRef>)
    // nothing is released once `focusTrap` is falsy, or when no trap was stored
    ensures Releases(focusTrapTruthy, stored) ==> focusTrapTruthy && stored.Some?
    // a stored trap without `deactivate` is never released
    ensures stored.Some? && !stored.value.hasDeactivate ==> !Releases(focusTrapTruthy, stored)
  {
    focusTrapTruthy && stored.Some? && stored.value.hasDeactivate
  }
}

=== FILE: host.dfy ===
/**
 * The collaborators the modal stack talks to, reduced to what it asks of
 * them. The rendering engine creates views and attaches them to the
 * application; the document appends nodes to a container element; the
 * focus-trap utility constructs, activates and deactivates traps; the modal
 * reference settles. Every such call is recorded as an `Effect`, so one call
 * of `open` is described by the sequence of effects it performs, and its
 * ordering properties are stated on projections of that sequence.
 */
module Host {
  import opened JsValues

  /** Views are numbered by the order in which they are created. */
  type ViewId = nat

  /**
   * The identity of an `NgbActiveModal`: the context a template is
   * instantiated with, and what a content component's injector provides.
   */
  type ModalId = nat

  /** An element that already exists in the document (a modal container). */
  type ElementId = nat

  datatype Node =
    | TextNode(data: string)
    | HostElement(view: ViewId)              // `location.nativeElement` of a component's host view
    | TemplateRoot(view: ViewId, index: nat) // the `index`-th root node of an embedded view

  /**
   * The component a host view renders: one of the two surfaces `open` mounts
   * (the backdrop and the window), or a caller's content component.
   */
  datatype HostComponent =
    | BackdropSurface
    | WindowSurface(projected: seq<seq<Node>>)
    | ContentComponent(name: string, context: ModalId)

  datatype View =
    | EmbeddedView(id: ViewId, template: TemplateRef, context: ModalId)
    | HostView(id: ViewId, component: HostComponent)

  /** The two focus-trap constructions: without and with the `fallbackFocus` option. */
  datatype Attempt = Plain | WithFallback

  datatype Settlement = Close(result: Value) | Dismiss(reason: Value)

  datatype Effect =
    | Create(view: View)                         // factory `create` / `createEmbeddedView`
    | Attach(id: ViewId)                         // `ApplicationRef.attachView`
    | Append(parent: ElementId, child: Node)     // `appendChild` on the container
    | TrapConstruct(attempt: Attempt, root: Node) // a call of `focusTrap(root, …)`
    | TrapActivate(attempt: Attempt)             // `activate()` on the trap that attempt built
    | ForwardToRef(settlement: Settlement)       // `NgbModalRef.close` / `dismiss`
    | TrapDeactivate(attempt: Attempt)           // `deactivate()` on the stored trap

  /** Why `open` throws. */
  datatype OpenError =
    | ContainerNotFound(selector: Value)
    | FocusTrapUndeclared   // `if (focusTrap)` on a global that was never declared
    | NoComponentFactory(content: Value)

  predicate IsAttach(e: Effect) { e.Attach? }
  predicate IsAppend(e: Effect) { e.Append? }
  predicate IsTrapConstruct(e: Effect) { e.TrapConstruct? }
  predicate IsTrapActivate(e: Effect) { e.TrapActivate? }
  predicate IsTrapEffect(e: Effect) { e.TrapConstruct? || e.TrapActivate? }

  /** The creation of a backdrop or window, as opposed to a content view. */
  predicate IsSurfaceCreate(e: Effect) {
    e.Create? && e.view.HostView? && !e.view.component.ContentComponent?
  }

  /** The subsequence of the effects satisfying `p`, in their original order. */
  function Filter(t: seq<Effect>, p: Effect -> bool): (r: seq<Effect>)
    ensures |r| <= |t|
  {
    if t == [] then [] else (if p(t[0]) then [t[0]] else []) + Filter(t[1..], p)
  }

  lemma {:induction false} FilterAppend(a: seq<Effect>, b: seq<Effect>, p: Effect -> bool)
    ensures Filter(a + b, p) == Filter(a, p) + Filter(b, p)
  {
    if a == [] {
      assert a + b == b;
    } else {
      var h := if p(a[0]) then [a[0]] else [];
      assert (a + b)[0] == a[0];
      assert (a + b)[1..] == a[1..] + b;
      assert Filter(a + b, p) == h + Filter(a[1..] + b, p);
      FilterAppend(a[1..], b, p);
      assert Filter(a, p) == h + Filter(a[1..], p);
      assert h + (Filter(a[1..], p) + Filter(b, p)) == (h + Filter(a[1..], p)) + Filter(b, p);
    }
  }

  /** The projection keeps exactly the effects satisfying `p`. */
  lemma {:induction false} FilterMembers(t: seq<Effect>, p: Effect -> bool)
    ensures forall e | e in Filter(t, p) :: e in t && p(e)
    ensures forall e | e in t && p(e) :: e in Filter(t, p)
  {
    if t != [] {
      FilterMembers(t[1..], p);
      assert forall e | e in t :: e == t[0] || e in t[1..];
    }
  }

  /** Effects none of which satisfies `p` project to nothing. */
  lemma {:induction false} FilterNone(t: seq<Effect>, p: Effect -> bool)
    requires forall e | e in t :: !p(e)
    ensures Filter(t, p) == []
  {
    if t != [] {
      assert t[0] in t;
      assert forall e | e in t[1..] :: e in t;
      FilterNone(t[1..], p);
    }
  }

  /**
   * When `a` creates no surface and `b` never attaches view `v`, every
   * attachment of `v` in `a + b` comes before every surface creation.
   */
  lemma AttachPrecedesCreate(a: seq<Effect>, b: seq<Effect>, v: ViewId)
    requires forall e | e in a :: !IsSurfaceCreate(e)
    requires Attach(v) !in b
    ensures forall i, j | 0 <= i < |a + b| && 0 <= j < |a + b|
                          && (a + b)[i] == Attach(v) && IsSurfaceCreate((a + b)[j]) :: i < j
  {
    forall j | 0 <= j < |a|
      ensures !IsSurfaceCreate((a + b)[j])
    {
      assert (a + b)[j] == a[j];
      assert a[j] in a;
    }
    forall i | |a| <= i < |a + b|
      ensures (a + b)[i] != Attach(v)
    {
      assert (a + b)[i] == b[i - |a|];
      assert b[i - |a|] in b;
    }
  }

  lemma ConcatAssoc(a: seq<Effect>, b: seq<Effect>, c: seq<Effect>)
    ensures a + (b + c) == a + b + c
  {
  }

  lemma FilterSingle(e: Effect, p: Effect -> bool)
    ensures Filter([e], p) == if p(e) then [e] else []
  {
    assert [e][1..] == [];
  }

  lemma FilterThree(a: Effect, b: Effect, c: Effect, p: Effect -> bool)
    ensures Filter([a, b, c], p) ==
              (if p(a) then [a] else []) + (if p(b) then [b] else []) + (if p(c) then [c] else [])
  {
    assert [a, b, c][1..] == [b, c];
    assert [b, c][1..] == [c];
    FilterSingle(c, p);
    assert Filter([b, c], p) == (if p(b) then [b] else []) + Filter([c], p);
  }

  /** The step of mounting an effect performs: create, attach, append, or none of them. */
  function MountStep(e: Effect): nat {
    match e
    case Create(_) => 0
    case Attach(_) => 1
    case Append(_, _) => 2
    case _ => 3
  }

  /**
   * Creating a component view, attaching it to the application and appending
   * its host element to the container: the three steps shared by the backdrop
   * and the window.
   */
  function Mount(surface: HostComponent, id: ViewId, container: ElementId): (m: seq<Effect>)
    ensures Filter(m, IsAttach) == [Attach(id)]
    ensures Filter(m, IsAppend) == [Append(container, HostElement(id))]
    ensures Filter(m, IsSurfaceCreate) ==
              if surface.ContentComponent? then [] else [Create(HostView(id, surface))]
    ensures Filter(m, IsTrapConstruct) == []
    ensures Filter(m, IsTrapActivate) == []
    ensures forall e | e in m && e.Create? :: e.view.id == id
    ensures forall e | e in m && e.Attach? :: e.id == id
    ensures forall e | e in m :: !IsTrapEffect(e)
    // the view is created, then attached, then its element appended
    ensures forall i, j | 0 <= i < j < |m| :: MountStep(m[i]) < MountStep(m[j])
    ensures forall i | 0 <= i < |m| :: MountStep(m[i]) < 3
  {
    var c, a, n := Create(HostView(id, surface)), Attach(id), Append(container, HostElement(id));
    FilterThree(c, a, n, IsAttach);
    FilterThree(c, a, n, IsAppend);
    FilterThree(c, a, n, IsSurfaceCreate);
    FilterThree(c, a, n, IsTrapConstruct);
    FilterThree(c, a, n, IsTrapActivate);
    [c, a, n]
  }
}

=== FILE: js_values.dfy ===
/**
 * The JavaScript values the modal stack inspects: the `content` argument of
 * `open`, the entries of its `options` object and the fields of the window
 * component instance. Only the distinctions the stack makes are kept:
 * truthiness (`!content`, `options.container || 'body'`), `isDefined`,
 * `isString` and `instanceof TemplateRef`.
 */
module JsValues {

  /** A compiled template; instantiating it yields `rootCount` root nodes. */
  datatype TemplateRef = TemplateRef(name: string, rootCount: nat)

  datatype Value =
    | Undefined
    | Null
    | Bool(b: bool)
    | Num(n: int)            // a finite number; only zero versus non-zero matters here
    | NaN
    | Str(s: string)
    | Template(template: TemplateRef)
    | ComponentType(name: string)
    | OtherObject(id: nat)   // any other object or function

  /** JavaScript truthiness: everything except undefined, null, false, 0, NaN and "". */
  predicate Truthy(v: Value) {
    match v
    case Undefined => false
    case Null => false
    case Bool(b) => b
    case Num(n) => n != 0
    case NaN => false
    case Str(s) => s != ""
    case _ => true
  }

  /** `isDefined` of the library's utilities: neither undefined nor null. */
  predicate IsDefined(v: Value) {
    !v.Undefined? && !v.Null?
  }

  /** `isString`: `typeof v === 'string'`. */
  predicate IsString(v: Value) {
    v.Str?
  }

  /** A plain object as a property map; a missing property reads as undefined. */
  type Object = map<string, Value>

  function Get(o: Object, key: string): Value {
    if key in o then o[key] else Undefined
  }
}

=== FILE: modal_stack.dfy ===
/**
 * `NgbModalStack.open`: validate the container, resolve the content, mount
 * the optional backdrop and then the window, build the modal reference, set
 * up the focus trap, wire the active modal's close and dismiss, and copy the
 * defined window options.
 */
module ModalStack {
  import opened Results
  import opened JsValues
  import opened Host
  import opened ContentRefs
  import opened WindowOptions
  import opened FocusGuard

  /**
   * What `open` sees of the world: `document.querySelector` as a lookup,
   * the components the caller's factory resolver knows, the global
   * `focusTrap`, the window component's initial fields, the identity of the
   * `NgbActiveModal` it creates and the next unused view id.
   */
  datatype Env = Env(
    query: map<Value, ElementId>,
    resolver: set<string>,
    focusTrap: FocusTrapLib,
    windowDefaults: Object,
    modalId: ModalId,
    next: ViewId)

  /** `NgbModalRef`: the window, the content and the optional backdrop. */
  datatype ModalRef = ModalRef(window: ComponentRef, content: ContentRef, backdrop: Option<ComponentRef>)

  /** `NgbActiveModal`: its identity, and the trap its close and dismiss capture. */
  datatype ActiveModal = ActiveModal(id: ModalId, trap: Option<TrapRef>)

  datatype Opened = Opened(
    container: ElementId,
    modalRef: ModalRef,
    window: Object,            // the window instance's fields after the options are applied
    activeModal: ActiveModal)

  /** The effects `open` performed, its result or exception, and the next unused view id. */
  datatype OpenOutcome = OpenOutcome(trace: seq<Effect>, result: Result<Opened, OpenError>, next: ViewId)

  const BackdropComponent: string := "NgbModalBackdrop"
  const WindowComponent: string := "NgbModalWindow"

  /** `options.container || 'body'`. */
  function ContainerSelector(options: Object): (sel: Value)
    ensures Truthy(sel)
    ensures Truthy(Get(options, "container")) ==> sel == Get(options, "container")
    // a missing or falsy container option falls back to the document body
    ensures !Truthy(Get(options, "container")) ==> sel == Str("body")
  {
    if Truthy(Get(options, "container")) then Get(options, "container") else Str("body")
  }

  /** `options.backdrop !== false`. */
  predicate WantsBackdrop(options: Object)
    // only the literal `false` suppresses the backdrop
    ensures !WantsBackdrop(options) ==> Get(options, "backdrop") == Bool(false)
    // a missing option and the other falsy values still ask for one
    ensures Get(options, "backdrop") in {Undefined, Null, Num(0), NaN, Str("")} ==> WantsBackdrop(options)
  {
    Get(options, "backdrop") != Bool(false)
  }

  /** The content can be resolved: only an unregistered component description cannot. */
  predicate ContentResolves(resolver: set<string>, content: Value) {
    Shape(content) != ComponentContent || CanResolve(resolver, content)
  }

  /** `open` returns a modal: the container exists, the content resolves and `focusTrap` is declared. */
  predicate OpenSucceeds(env: Env, content: Value, options: Object) {
    ContainerSelector(options) in env.query && ContentResolves(env.resolver, content)
    && !env.focusTrap.Undeclared?
  }

  /**
   * The components `open` allocates after the content: the backdrop, when
   * wanted, and then the window, on the next unused view ids.
   */
  function Layout(resolved: Resolved, options: Object): (m: ModalRef)
    ensures m.content == resolved.ref
    ensures m.backdrop.Some? <==> WantsBackdrop(options)
    ensures m.backdrop.Some? ==>
              m.backdrop.value.component == BackdropComponent
              && resolved.next <= m.backdrop.value.hostView < m.window.hostView
    ensures m.window.component == WindowComponent && resolved.next <= m.window.hostView
  {
    var backdrop := if WantsBackdrop(options) then Some(ComponentRef(resolved.next, BackdropComponent)) else None;
    var windowId := if backdrop.Some? then resolved.next + 1 else resolved.next;
    ModalRef(ComponentRef(windowId, WindowComponent), resolved.ref, backdrop)
  }

  /**
   * The backdrop (if any) and then the window: each created, attached and
   * its element appended to the container.
   */
  function Surfaces(m: ModalRef, container: ElementId): (t: seq<Effect>)
    ensures Filter(t, IsAppend) ==
              (if m.backdrop.Some? then [Append(container, m.backdrop.value.Location())] else [])
              + [Append(container, m.window.Location())]
    ensures Filter(t, IsSurfaceCreate) ==
              (if m.backdrop.Some? then [Create(HostView(m.backdrop.value.hostView, BackdropSurface))] else [])
              + [Create(HostView(m.window.hostView, WindowSurface(m.content.nodes)))]
    ensures Filter(t, IsAttach) ==
              (if m.backdrop.Some? then [Attach(m.backdrop.value.hostView)] else [])
              + [Attach(m.window.hostView)]
    ensures Filter(t, IsTrapConstruct) == []
    ensures Filter(t, IsTrapActivate) == []
  {
    var b := if m.backdrop.Some? then Mount(BackdropSurface, m.backdrop.value.hostView, container) else [];
    var w := Mount(WindowSurface(m.content.nodes), m.window.hostView, container);
    FilterAppend(b, w, IsAppend);
    FilterAppend(b, w, IsSurfaceCreate);
    FilterAppend(b, w, IsAttach);
    FilterAppend(b, w, IsTrapConstruct);
    FilterAppend(b, w, IsTrapActivate);
    b + w
  }

  /**
   * The steps of `open` once the container is found and the content resolved:
   * mount the backdrop and the window, build the modal reference, set up the
   * focus trap, wire the active modal and apply the window options. Testing
   * an undeclared `focusTrap` throws, after the backdrop (if wanted) and the
   * window are mounted.
   */
  function Assemble(env: Env, container: ElementId, resolved: Resolved, options: Object): (o: OpenOutcome)
    ensures o.result.Ok? <==> !env.focusTrap.Undeclared?
    ensures o.result.Err? ==> o.result.error == FocusTrapUndeclared
    ensures o.result.Ok? ==>
              && o.result.value.container == container
              && o.result.value.modalRef == Layout(resolved, options)
              && o.result.value.activeModal.id == env.modalId
    // the surfaces' views are allocated whether or not the focus-trap test throws
    ensures o.next == Layout(resolved, options).window.hostView + 1
  {
    var m := Layout(resolved, options);
    var trap := SetupFocusTrap(env.focusTrap, m.window.Location());
    var trace := resolved.trace + Surfaces(m, container) + trap.trace;
    if trap.thrown then OpenOutcome(trace, Err(FocusTrapUndeclared), m.window.hostView + 1)
    else
      var result := Opened(container, m, ApplyWindowOptions(env.windowDefaults, options),
                           ActiveModal(env.modalId, trap.stored));
      OpenOutcome(trace, Ok(result), m.window.hostView + 1)
  }

  function Open(env: Env, content: Value, options: Object): (o: OpenOutcome)
    ensures o.result.Ok? <==> OpenSucceeds(env, content, options)
    // the container is checked first, then the content, then the focus-trap global
    ensures ContainerSelector(options) !in env.query ==>
              o.result == Err(ContainerNotFound(ContainerSelector(options)))
    ensures ContainerSelector(options) in env.query && !ContentResolves(env.resolver, content) ==>
              o.result == Err(NoComponentFactory(content))
    ensures (ContainerSelector(options) in env.query && ContentResolves(env.resolver, content)
             && env.focusTrap.Undeclared?) ==> o.result == Err(FocusTrapUndeclared)
    // a missing container or unresolvable content is reported before anything is done
    ensures o.result.Err? && o.result.error != FocusTrapUndeclared ==> o.trace == [] && o.next == env.next
    ensures o.result.Ok? ==>
              o.result.value.container == env.query[ContainerSelector(options)]
              && o.result.value.activeModal.id == env.modalId
    // the window keeps its own value for every option the caller left undefined
    ensures o.result.Ok? ==>
              forall k :: Get(o.result.value.window, k) ==
                if k in WindowOptionNames && IsDefined(Get(options, k)) then Get(options, k)
                else Get(env.windowDefaults, k)
  {
    var selector := ContainerSelector(options);
    if selector !in env.query then
      OpenOutcome([], Err(ContainerNotFound(selector)), env.next)
    else
      match GetContentRef(env.resolver, content, env.modalId, env.next)
      case Err(e) => OpenOutcome([], Err(e), env.next)
      case Ok(resolved) => Assemble(env, env.query[selector], resolved, options)
  }

  /** Once the container is found and the content resolved, `open` is their assembly. */
  lemma OpenAssembles(env: Env, content: Value, options: Object)
    requires ContainerSelector(options) in env.query && ContentResolves(env.resolver, content)
    ensures GetContentRef(env.resolver, content, env.modalId, env.next).Ok?
    ensures Open(env, content, options) ==
              Assemble(env, env.query[ContainerSelector(options)],
                       GetContentRef(env.resolver, content, env.modalId, env.next).value, options)
    ensures WellFormed(GetContentRef(env.resolver, content, env.modalId, env.next).value, env.next)
  {
  }

  /**
   * `activeModal.close(r)` / `activeModal.dismiss(r)` as wired by `open`:
   * forward to the modal reference, then deactivate the stored trap when
   * `focusTrap` is truthy at that moment and the trap has `deactivate`.
   */
  function Settle(am: ActiveModal, s: Settlement, focusTrapTruthy: bool): (effects: seq<Effect>)
    ensures 1 <= |effects| <= 2 && effects[0] == ForwardToRef(s)
    ensures |effects| == 2 <==> Releases(focusTrapTruthy, am.trap)
    ensures |effects| == 2 ==> effects[1] == TrapDeactivate(am.trap.value.attempt)
  {
    [ForwardToRef(s)] +
    if Releases(focusTrapTruthy, am.trap) then [TrapDeactivate(am.trap.value.attempt)] else []
  }

  /** The projection `p` of an assembly: content, then surfaces, then focus trap. */
  lemma AssembleFilter(env: Env, container: ElementId, resolved: Resolved, options: Object, p: Effect -> bool)
    ensures var m := Layout(resolved, options);
      Filter(Assemble(env, container, resolved, options).trace, p) ==
        Filter(resolved.trace, p) + Filter(Surfaces(m, container), p)
        + Filter(SetupFocusTrap(env.focusTrap, m.window.Location()).trace, p)
  {
    var m := Layout(resolved, options);
    var b := Surfaces(m, container);
    var t := SetupFocusTrap(env.focusTrap, m.window.Location()).trace;
    FilterAppend(resolved.trace + b, t, p);
    FilterAppend(resolved.trace, b, p);
  }

  /**
   * The container receives the backdrop's element (if any) and then the
   * window's, and nothing else.
   */
  lemma AssembleMountsBackdropBeforeWindow(env: Env, container: ElementId, resolved: Resolved, options: Object)
    requires WellFormed(resolved, env.next)
    ensures var m := Layout(resolved, options);
      Filter(Assemble(env, container, resolved, options).trace, IsAppend) ==
        (if m.backdrop.Some? then [Append(container, m.backdrop.value.Location())] else [])
        + [Append(container, m.window.Location())]
  {
    var o := Assemble(env, container, resolved, options);
    var m := Layout(resolved, options);
    AssembleFilter(env, container, resolved, options, IsAppend);
    SetupOnlyTraps(env.focusTrap, m.window.Location());
    var f := Filter(Surfaces(m, container), IsAppend);
    assert Filter(resolved.trace, IsAppend) == [];
    assert Filter(o.trace, IsAppend) == [] + f + [];
  }

  /**
   * A backdrop is mounted exactly when `options.backdrop !== false`; the
   * container receives the backdrop's element (if any) and then the window's,
   * and nothing else.
   */
  lemma OpenMountsBackdropBeforeWindow(env: Env, content: Value, options: Object)
    requires OpenSucceeds(env, content, options)
    ensures var d := Open(env, content, options).result.value;
      var m := d.modalRef;
      && (m.backdrop.Some? <==> WantsBackdrop(options))
      && Filter(Open(env, content, options).trace, IsAppend) ==
           (if m.backdrop.Some? then [Append(d.container, m.backdrop.value.Location())] else [])
           + [Append(d.container, m.window.Location())]
      && (m.backdrop.Some? ==> m.backdrop.value.Location() != m.window.Location())
  {
    OpenAssembles(env, content, options);
    var container := env.query[ContainerSelector(options)];
    var resolved := GetContentRef(env.resolver, content, env.modalId, env.next).value;
    AssembleMountsBackdropBeforeWindow(env, container, resolved, options);
  }

  /**
   * The window is created exactly once, projecting exactly the resolved
   * content's node groups, after the backdrop if there is one; no other
   * surface is created.
   */
  lemma AssembleCreatesWindowOnce(env: Env, container: ElementId, resolved: Resolved, options: Object)
    requires WellFormed(resolved, env.next)
    ensures var m := Layout(resolved, options);
      Filter(Assemble(env, container, resolved, options).trace, IsSurfaceCreate) ==
        (if m.backdrop.Some? then [Create(HostView(m.backdrop.value.hostView, BackdropSurface))] else [])
        + [Create(HostView(m.window.hostView, WindowSurface(resolved.ref.nodes)))]
  {
    AssembleFilter(env, container, resolved, options, IsSurfaceCreate);
    SetupOnlyTraps(env.focusTrap, Layout(resolved, options).window.Location());
  }

  lemma OpenCreatesWindowOnce(env: Env, content: Value, options: Object)
    requires OpenSucceeds(env, content, options)
    ensures var m := Open(env, content, options).result.value.modalRef;
      && m.content == GetContentRef(env.resolver, content, env.modalId, env.next).value.ref
      && Filter(Open(env, content, options).trace, IsSurfaceCreate) ==
           (if m.backdrop.Some? then [Create(HostView(m.backdrop.value.hostView, BackdropSurface))] else [])
           + [Create(HostView(m.window.hostView, WindowSurface(m.content.nodes)))]
  {
    OpenAssembles(env, content, options);
    AssembleCreatesWindowOnce(env, env.query[ContainerSelector(options)],
                              GetContentRef(env.resolver, content, env.modalId, env.next).value, options);
  }

  /** The views attached: the content's own view, then the backdrop's, then the window's. */
  lemma AssembleAttachesViews(env: Env, container: ElementId, resolved: Resolved, options: Object)
    requires WellFormed(resolved, env.next)
    ensures var m := Layout(resolved, options);
      Filter(Assemble(env, container, resolved, options).trace, IsAttach) ==
        (if resolved.ref.viewRef.Some? then [Attach(resolved.ref.viewRef.value)] else [])
        + (if m.backdrop.Some? then [Attach(m.backdrop.value.hostView)] else [])
        + [Attach(m.window.hostView)]
  {
    AssembleFilter(env, container, resolved, options, IsAttach);
    var m := Layout(resolved, options);
    SetupOnlyTraps(env.focusTrap, m.window.Location());
    var c := Filter(resolved.trace, IsAttach);
    var b := if m.backdrop.Some? then [Attach(m.backdrop.value.hostView)] else [];
    ConcatAssoc(c, b, [Attach(m.window.hostView)]);
  }

  /**
   * One, two or three views are attached: the backdrop's when one is wanted,
   * always the window's, and the content's for template or component content.
   */
  lemma OpenAttachesViews(env: Env, content: Value, options: Object)
    requires OpenSucceeds(env, content, options)
    ensures var m := Open(env, content, options).result.value.modalRef;
      var attached := Filter(Open(env, content, options).trace, IsAttach);
      && attached ==
           (if m.content.viewRef.Some? then [Attach(m.content.viewRef.value)] else [])
           + (if m.backdrop.Some? then [Attach(m.backdrop.value.hostView)] else [])
           + [Attach(m.window.hostView)]
      && |attached| == (if WantsBackdrop(options) then 1 else 0) + 1
                       + (if Shape(content) in {TemplateContent, ComponentContent} then 1 else 0)
  {
    OpenAssembles(env, content, options);
    var resolved := GetContentRef(env.resolver, content, env.modalId, env.next).value;
    var container := env.query[ContainerSelector(options)];
    AssembleAttachesViews(env, container, resolved, options);
  }

  /**
   * Whatever was resolved before, the content's view is attached before any
   * surface is created, since surfaces and the focus trap use later ids.
   */
  lemma ContentBeforeSurfaces(resolved: Resolved, next: ViewId, m: ModalRef, container: ElementId, trap: seq<Effect>)
    requires WellFormed(resolved, next)
    requires m.backdrop.Some? ==> m.backdrop.value.hostView >= resolved.next
    requires m.window.hostView >= resolved.next
    requires forall e | e in trap :: IsTrapEffect(e)
    ensures var t := resolved.trace + Surfaces(m, container) + trap;
      var v := resolved.ref.viewRef;
      forall i, j | 0 <= i < |t| && 0 <= j < |t|
                    && v.Some? && t[i] == Attach(v.value) && IsSurfaceCreate(t[j]) :: i < j
  {
    var v := resolved.ref.viewRef;
    if v.Some? {
      var surfaces := Surfaces(m, container);
      var rest := surfaces + trap;
      assert Attach(v.value) !in surfaces by {
        FilterMembers(surfaces, IsAttach);
      }
      assert Attach(v.value) !in trap by {
        assert !IsTrapEffect(Attach(v.value));
      }
      assert forall e | e in resolved.trace :: !IsSurfaceCreate(e) by {
        FilterMembers(resolved.trace, IsSurfaceCreate);
      }
      AttachPrecedesCreate(resolved.trace, rest, v.value);
      assert resolved.trace + surfaces + trap == resolved.trace + rest;
    }
  }

  lemma AssembleAttachesContentFirst(env: Env, container: ElementId, resolved: Resolved, options: Object)
    requires WellFormed(resolved, env.next)
    ensures var t := Assemble(env, container, resolved, options).trace;
      var v := resolved.ref.viewRef;
      forall i, j | 0 <= i < |t| && 0 <= j < |t|
                    && v.Some? && t[i] == Attach(v.value) && IsSurfaceCreate(t[j]) :: i < j
  {
    var m := Layout(resolved, options);
    ContentBeforeSurfaces(resolved, env.next, m, container, SetupFocusTrap(env.focusTrap, m.window.Location()).trace);
  }

  lemma OpenAttachesContentFirst(env: Env, content: Value, options: Object)
    requires OpenSucceeds(env, content, options)
    ensures var o := Open(env, content, options);
      var v := o.result.value.modalRef.content.viewRef;
      forall i, j | 0 <= i < |o.trace| && 0 <= j < |o.trace|
                    && v.Some? && o.trace[i] == Attach(v.value) && IsSurfaceCreate(o.trace[j]) :: i < j
  {
    OpenAssembles(env, content, options);
    AssembleAttachesContentFirst(env, env.query[ContainerSelector(options)],
                                 GetContentRef(env.resolver, content, env.modalId, env.next).value, options);
  }

  /**
   * The phase of `open` an effect belongs to, for the modal `m` mounted in
   * `container`: 1 to 3 for creating, attaching and appending the backdrop,
   * 4 to 6 for the same steps of the window, 7 for the focus trap, and 0 for
   * everything else, which is the content's work.
   */
  function Stage(m: ModalRef, container: ElementId, e: Effect): nat {
    if IsTrapEffect(e) then 7
    else if m.backdrop.Some? && e == Create(HostView(m.backdrop.value.hostView, BackdropSurface)) then 1
    else if m.backdrop.Some? && e == Attach(m.backdrop.value.hostView) then 2
    else if m.backdrop.Some? && e == Append(container, m.backdrop.value.Location()) then 3
    else if e == Create(HostView(m.window.hostView, WindowSurface(m.content.nodes))) then 4
    else if e == Attach(m.window.hostView) then 5
    else if e == Append(container, m.window.Location()) then 6
    else 0
  }

  /** The effects `t` go through the phases of `open` in order and never return to an earlier one. */
  predicate InStages(m: ModalRef, container: ElementId, t: seq<Effect>) {
    forall i, j | 0 <= i < j < |t| :: Stage(m, container, t[i]) <= Stage(m, container, t[j])
  }

  /** Effects all at or below stage `k`, followed by effects all at or above it, stay in order. */
  lemma StagesAppend(m: ModalRef, container: ElementId, a: seq<Effect>, b: seq<Effect>, k: nat)
    requires InStages(m, container, a) && InStages(m, container, b)
    requires forall e | e in a :: Stage(m, container, e) <= k
    requires forall e | e in b :: k <= Stage(m, container, e)
    ensures InStages(m, container, a + b)
  {
    forall i, j | 0 <= i < j < |a + b|
      ensures Stage(m, container, (a + b)[i]) <= Stage(m, container, (a + b)[j])
    {
      if j < |a| {
        assert (a + b)[i] == a[i] && (a + b)[j] == a[j];
      } else if i >= |a| {
        assert (a + b)[i] == b[i - |a|] && (a + b)[j] == b[j - |a|];
      } else {
        assert (a + b)[i] == a[i] && a[i] in a;
        assert (a + b)[j] == b[j - |a|] && b[j - |a|] in b;
      }
    }
  }

  /** Effects that all share one stage are in order. */
  lemma SameStage(m: ModalRef, container: ElementId, t: seq<Effect>, k: nat)
    requires forall e | e in t :: Stage(m, container, e) == k
    ensures InStages(m, container, t)
  {
    forall i, j | 0 <= i < j < |t|
      ensures Stage(m, container, t[i]) <= Stage(m, container, t[j])
    {
      assert t[i] in t && t[j] in t;
    }
  }

  /** The content's effects are all stage 0: they touch neither surface nor trap. */
  lemma ContentStage(resolved: Resolved, next: ViewId, m: ModalRef, container: ElementId)
    requires WellFormed(resolved, next)
    requires m.backdrop.Some? ==> resolved.next <= m.backdrop.value.hostView
    requires resolved.next <= m.window.hostView
    ensures forall e | e in resolved.trace :: Stage(m, container, e) == 0
  {
    forall e | e in resolved.trace
      ensures Stage(m, container, e) == 0
    {
      if e.Create? {
        // the content creates no surface
        FilterMembers(resolved.trace, IsSurfaceCreate);
        assert !IsSurfaceCreate(e);
      } else {
        // the content attaches only its own view, whose id precedes both surfaces'
        FilterMembers(resolved.trace, IsAttach);
        assert e in Filter(resolved.trace, IsAttach);
        assert e == Attach(resolved.ref.viewRef.value);
      }
    }
  }

  /** The surfaces go through stages 1 to 6 (4 to 6 without a backdrop), in order. */
  lemma SurfacesStages(m: ModalRef, container: ElementId)
    requires m.backdrop.Some? ==> m.backdrop.value.hostView != m.window.hostView
    ensures InStages(m, container, Surfaces(m, container))
    ensures forall e | e in Surfaces(m, container) :: 1 <= Stage(m, container, e) <= 6
  {
    var w := WindowStages(m, container);
    if m.backdrop.Some? {
      var b := BackdropStages(m, container);
      StagesAppend(m, container, b, w, 3);
      assert Surfaces(m, container) == b + w;
      assert forall e | e in b + w :: e in b || e in w;
    }
  }

  /** The window's mount is stages 4, 5 and 6, in order. */
  lemma WindowStages(m: ModalRef, container: ElementId) returns (w: seq<Effect>)
    requires m.backdrop.Some? ==> m.backdrop.value.hostView != m.window.hostView
    ensures w == Mount(WindowSurface(m.content.nodes), m.window.hostView, container)
    ensures InStages(m, container, w)
    ensures forall e | e in w :: 4 <= Stage(m, container, e) <= 6
  {
    var id := m.window.hostView;
    w := Mount(WindowSurface(m.content.nodes), id, container);
    var c, a, p := Create(HostView(id, WindowSurface(m.content.nodes))), Attach(id), Append(container, HostElement(id));
    assert w == [c, a, p];
    assert Stage(m, container, c) == 4;
    assert Stage(m, container, a) == 5;
    assert Stage(m, container, p) == 6;
  }

  /** The backdrop's mount is stages 1, 2 and 3, in order. */
  lemma BackdropStages(m: ModalRef, container: ElementId) returns (b: seq<Effect>)
    requires m.backdrop.Some?
    ensures b == Mount(BackdropSurface, m.backdrop.value.hostView, container)
    ensures InStages(m, container, b)
    ensures forall e | e in b :: 1 <= Stage(m, container, e) <= 3
  {
    var id := m.backdrop.value.hostView;
    b := Mount(BackdropSurface, id, container);
    var c, a, p := Create(HostView(id, BackdropSurface)), Attach(id), Append(container, HostElement(id));
    assert b == [c, a, p];
    assert Stage(m, container, c) == 1;
    assert Stage(m, container, a) == 2;
    assert Stage(m, container, p) == 3;
  }

  /** Content, surfaces and focus-trap effects, put together, are in stage order. */
  lemma StagesPieces(resolved: Resolved, next: ViewId, m: ModalRef, container: ElementId, trap: seq<Effect>)
    requires WellFormed(resolved, next)
    requires m.backdrop.Some? ==> resolved.next <= m.backdrop.value.hostView < m.window.hostView
    requires resolved.next <= m.window.hostView
    requires forall e | e in trap :: IsTrapEffect(e)
    ensures InStages(m, container, resolved.trace + Surfaces(m, container) + trap)
  {
    var surfaces := Surfaces(m, container);
    ContentStage(resolved, next, m, container);
    SameStage(m, container, resolved.trace, 0);
    SurfacesStages(m, container);
    StagesAppend(m, container, resolved.trace, surfaces, 1);
    SameStage(m, container, trap, 7);
    assert forall e | e in resolved.trace + surfaces :: e in resolved.trace || e in surfaces;
    StagesAppend(m, container, resolved.trace + surfaces, trap, 7);
  }

  /**
   * `open` goes through its phases in order and never back: the content's
   * effects, then the backdrop created, attached and appended, then the
   * window created, attached and appended, and last the focus trap.
   */
  lemma OpenMountOrder(env: Env, content: Value, options: Object)
    requires OpenSucceeds(env, content, options)
    ensures var o := Open(env, content, options);
      InStages(o.result.value.modalRef, o.result.value.container, o.trace)
  {
    OpenAssembles(env, content, options);
    var d := Open(env, content, options).result.value;
    var resolved := GetContentRef(env.resolver, content, env.modalId, env.next).value;
    var trap := SetupFocusTrap(env.focusTrap, d.modalRef.window.Location()).trace;
    StagesPieces(resolved, env.next, d.modalRef, d.container, trap);
  }

  /**
   * With a `focusTrap` global that was never declared, `open` throws only
   * after the backdrop and the window are mounted in the container; no trap
   * is built.
   */
  lemma OpenThrowsAfterMounting(env: Env, content: Value, options: Object)
    requires ContainerSelector(options) in env.query && ContentResolves(env.resolver, content)
    requires env.focusTrap.Undeclared?
    ensures var o := Open(env, content, options);
      var container := env.query[ContainerSelector(options)];
      var m := Layout(GetContentRef(env.resolver, content, env.modalId, env.next).value, options);
      && o.result == Err(FocusTrapUndeclared)
      && Filter(o.trace, IsAppend) ==
           (if m.backdrop.Some? then [Append(container, m.backdrop.value.Location())] else [])
           + [Append(container, m.window.Location())]
      && Filter(o.trace, IsTrapConstruct) == []
  {
    OpenAssembles(env, content, options);
    var container := env.query[ContainerSelector(options)];
    var resolved := GetContentRef(env.resolver, content, env.modalId, env.next).value;
    AssembleMountsBackdropBeforeWindow(env, container, resolved, options);
    AssembleConstructsTraps(env, container, resolved, options);
  }

  /**
   * The content is bound to the very active modal whose close and dismiss
   * `open` wires: a template is instantiated with it as context, and a
   * content component's injector provides it.
   */
  lemma OpenBindsContent(env: Env, content: Value, options: Object)
    requires OpenSucceeds(env, content, options)
    ensures var o := Open(env, content, options);
      var d := o.result.value;
      var v := d.modalRef.content.viewRef;
      && (Shape(content) == TemplateContent ==>
            v.Some? && Create(EmbeddedView(v.value, content.template, d.activeModal.id)) in o.trace)
      && (Shape(content) == ComponentContent ==>
            v.Some? && Create(HostView(v.value, ContentComponent(content.name, d.activeModal.id))) in o.trace)
  {
    OpenAssembles(env, content, options);
    var resolved := GetContentRef(env.resolver, content, env.modalId, env.next).value;
    var m := Layout(resolved, options);
    var trap := SetupFocusTrap(env.focusTrap, m.window.Location()).trace;
    if resolved.ref.viewRef.Some? {
      FirstOfPieces(resolved.trace, Surfaces(m, env.query[ContainerSelector(options)]), trap);
    }
  }

  lemma FirstOfPieces(a: seq<Effect>, b: seq<Effect>, c: seq<Effect>)
    requires |a| > 0
    ensures a[0] in a + b + c
  {
    assert (a + b + c)[0] == a[0];
  }

  /** Focus-trap setup on the window's element is the only source of trap constructions. */
  lemma AssembleConstructsTraps(env: Env, container: ElementId, resolved: Resolved, options: Object)
    requires WellFormed(resolved, env.next)
    ensures var root := Layout(resolved, options).window.Location();
      Filter(Assemble(env, container, resolved, options).trace, IsTrapConstruct)
        == Filter(SetupFocusTrap(env.focusTrap, root).trace, IsTrapConstruct)
  {
    AssembleFilter(env, container, resolved, options, IsTrapConstruct);
  }

  /** Only the focus-trap setup activates traps. */
  lemma AssembleActivatesTraps(env: Env, container: ElementId, resolved: Resolved, options: Object)
    requires WellFormed(resolved, env.next)
    ensures var root := Layout(resolved, options).window.Location();
      Filter(Assemble(env, container, resolved, options).trace, IsTrapActivate)
        == Filter(SetupFocusTrap(env.focusTrap, root).trace, IsTrapActivate)
  {
    var m := Layout(resolved, options);
    AssembleFilter(env, container, resolved, options, IsTrapActivate);
    FilterNone(resolved.trace, IsTrapActivate);
  }

  /** The active modal keeps the trap of the last construction that returned. */
  lemma AssembleStoresLastTrap(env: Env, container: ElementId, resolved: Resolved, options: Object)
    requires WellFormed(resolved, env.next)
    requires env.focusTrap.Present?
    ensures var o := Assemble(env, container, resolved, options);
      o.result.value.activeModal.trap == LastConstructed(env.focusTrap, o.trace)
  {
    var m := Layout(resolved, options);
    var before := resolved.trace + Surfaces(m, container);
    FilterAppend(resolved.trace, Surfaces(m, container), IsTrapConstruct);
    StoredAfter(env.focusTrap, before, m.window.Location());
  }

  /**
   * Focus-trap setup happens on the window's element: nothing when `focusTrap`
   * is falsy, otherwise one construction, and a second with `fallbackFocus`
   * only when the first construction or activation threw. Every trap whose
   * construction returned is then activated. The active modal keeps the trap
   * of the last construction that returned.
   */
  lemma OpenSetsUpFocusTrap(env: Env, content: Value, options: Object)
    requires OpenSucceeds(env, content, options)
    ensures var d := Open(env, content, options).result.value;
      var root := d.modalRef.window.Location();
      && Filter(Open(env, content, options).trace, IsTrapConstruct) ==
           (if env.focusTrap.Missing? then []
            else if env.focusTrap.plain.Activates? then [TrapConstruct(Plain, root)]
            else [TrapConstruct(Plain, root), TrapConstruct(WithFallback, root)])
      && Filter(Open(env, content, options).trace, IsTrapActivate) ==
           (if env.focusTrap.Missing? then []
            else (if env.focusTrap.plain.Constructs() then [TrapActivate(Plain)] else [])
                 + (if !env.focusTrap.plain.Activates? && env.focusTrap.withFallback.Constructs()
                    then [TrapActivate(WithFallback)] else []))
      && d.activeModal.trap ==
           (if env.focusTrap.Missing? then None
            else LastConstructed(env.focusTrap, Open(env, content, options).trace))
  {
    OpenAssembles(env, content, options);
    var d := Open(env, content, options).result.value;
    var container := env.query[ContainerSelector(options)];
    var resolved := GetContentRef(env.resolver, content, env.modalId, env.next).value;
    SetupConstructions(env.focusTrap, d.modalRef.window.Location());
    SetupActivations(env.focusTrap, d.modalRef.window.Location());
    AssembleConstructsTraps(env, container, resolved, options);
    AssembleActivatesTraps(env, container, resolved, options);
    if env.focusTrap.Present? {
      AssembleStoresLastTrap(env, container, resolved, options);
    }
  }

  /**
   * After a successful `open`, closing or dismissing through the active modal
   * always forwards to the modal reference first; it then deactivates a trap
   * exactly when `focusTrap` is still truthy and the last trap constructed
   * during `open` has `deactivate`, and the trap it deactivates is that one,
   * built on the window's element. When `focusTrap` was falsy at `open`,
   * nothing is ever deactivated.
   */
  lemma OpenWiresSettle(env: Env, content: Value, options: Object, s: Settlement, focusTrapTruthy: bool)
    requires OpenSucceeds(env, content, options)
    ensures var o := Open(env, content, options);
      var am := o.result.value.activeModal;
      var root := o.result.value.modalRef.window.Location();
      var effects := Settle(am, s, focusTrapTruthy);
      && effects[0] == ForwardToRef(s)
      && (env.focusTrap.Missing? ==> effects == [ForwardToRef(s)])
      && (env.focusTrap.Present? ==>
            (|effects| == 2 <==>
               focusTrapTruthy && LastConstructed(env.focusTrap, o.trace).Some?
               && LastConstructed(env.focusTrap, o.trace).value.hasDeactivate))
      && (|effects| == 2 ==>
            TrapConstruct(effects[1].attempt, root) in o.trace
            && env.focusTrap.Present? && env.focusTrap.Behaviour(effects[1].attempt).Constructs())
      && (env.focusTrap.Present? && |effects| == 2 ==>
            LastConstructed(env.focusTrap, o.trace).Some?
            && effects[1] == TrapDeactivate(LastConstructed(env.focusTrap, o.trace).value.attempt))
  {
    OpenAssembles(env, content, options);
    OpenSetsUpFocusTrap(env, content, options);
    var o := Open(env, content, options);
    var d := o.result.value;
    var root := d.modalRef.window.Location();
    var trap := SetupFocusTrap(env.focusTrap, root);
    StoredWasConstructed(env.focusTrap, root);
    if trap.stored.Some? {
      assert o.trace == GetContentRef(env.resolver, content, env.modalId, env.next).value.trace
                        + Surfaces(d.modalRef, d.container) + trap.trace;
      assert TrapConstruct(trap.stored.value.attempt, root) in o.trace;
    }
  }

  /**
   * Every view `open` creates or attaches has an id it allocated, so modals
   * opened one after another own disjoint views.
   */
  lemma OpenUsesFreshViews(env: Env, content: Value, options: Object)
    requires OpenSucceeds(env, content, options)
    ensures var o := Open(env, content, options);
      && (forall e | e in o.trace && e.Create? :: env.next <= e.view.id < o.next)
      && (forall e | e in o.trace && e.Attach? :: env.next <= e.id < o.next)
  {
    OpenAssembles(env, content, options);
    var o := Open(env, content, options);
    var d := o.result.value;
    var resolved := GetContentRef(env.resolver, content, env.modalId, env.next).value;
    var trap := SetupFocusTrap(env.focusTrap, d.modalRef.window.Location()).trace;
    FreshPieces(resolved, env.next, d.modalRef, d.container, trap, o.next);
  }

  /** The ids used by the content, the surfaces and the trap lie in `[next, top)`. */
  lemma FreshPieces(resolved: Resolved, next: ViewId, m: ModalRef, container: ElementId, trap: seq<Effect>, top: ViewId)
    requires WellFormed(resolved, next)
    requires m.backdrop.Some? ==> resolved.next <= m.backdrop.value.hostView < top
    requires resolved.next <= m.window.hostView < top
    requires forall e | e in trap :: IsTrapEffect(e)
    ensures var t := resolved.trace + Surfaces(m, container) + trap;
      && (forall e | e in t && e.Create? :: next <= e.view.id < top)
      && (forall e | e in t && e.Attach? :: next <= e.id < top)
  {
    var surfaces := Surfaces(m, container);
    var t := resolved.trace + surfaces + trap;
    FreshCreates(resolved, next, m, container, top);
    FreshAttaches(resolved, next, m, container, top);
    forall e | e in t && e.Create?
      ensures next <= e.view.id < top
    {
      assert e in resolved.trace || e in surfaces || e in trap;
      assert !IsTrapEffect(e);
    }
    forall e | e in t && e.Attach?
      ensures next <= e.id < top
    {
      assert e in resolved.trace || e in surfaces || e in trap;
      assert !IsTrapEffect(e);
    }
  }

  lemma FreshCreates(resolved: Resolved, next: ViewId, m: ModalRef, container: ElementId, top: ViewId)
    requires WellFormed(resolved, next)
    requires m.backdrop.Some? ==> resolved.next <= m.backdrop.value.hostView < top
    requires resolved.next <= m.window.hostView < top
    ensures forall e | e in resolved.trace && e.Create? :: next <= e.view.id < top
    ensures forall e | e in Surfaces(m, container) && e.Create? :: next <= e.view.id < top
  {
    SurfacesCreate(m, container);
  }

  lemma FreshAttaches(resolved: Resolved, next: ViewId, m: ModalRef, container: ElementId, top: ViewId)
    requires WellFormed(resolved, next)
    requires m.backdrop.Some? ==> resolved.next <= m.backdrop.value.hostView < top
    requires resolved.next <= m.window.hostView < top
    ensures forall e | e in resolved.trace && e.Attach? :: next <= e.id < top
    ensures forall e | e in Surfaces(m, container) && e.Attach? :: next <= e.id < top
  {
    FilterMembers(resolved.trace, IsAttach);
    SurfacesAttach(m, container);
  }

  /** The views the surfaces create are the backdrop's and the window's. */
  lemma SurfacesCreate(m: ModalRef, container: ElementId)
    ensures forall e | e in Surfaces(m, container) && e.Create? ::
              e.view.id == m.window.hostView || (m.backdrop.Some? && e.view.id == m.backdrop.value.hostView)
  {
    if m.backdrop.Some? {
      assert Surfaces(m, container) == Mount(BackdropSurface, m.backdrop.value.hostView, container)
                                       + Mount(WindowSurface(m.content.nodes), m.window.hostView, container);
    }
  }

  /** The views the surfaces attach are the backdrop's and the window's. */
  lemma SurfacesAttach(m: ModalRef, container: ElementId)
    ensures forall e | e in Surfaces(m, container) && e.Attach? ::
              e.id == m.window.hostView || (m.backdrop.Some? && e.id == m.backdrop.value.hostView)
  {
    if m.backdrop.Some? {
      assert Surfaces(m, container) == Mount(BackdropSurface, m.backdrop.value.hostView, container)
                                       + Mount(WindowSurface(m.content.nodes), m.window.hostView, container);
    }
  }
}

=== FILE: results.dfy ===
/** Optional values and success/failure results used throughout the model. */
module Results {

  datatype Option<+T> = None | Some(value: T)

  /** The outcome of an operation that may throw: `Err` stands for the exception. */
  datatype Result<+T, +E> = Ok(value: T) | Err(error: E)
}

=== FILE: window_options.dfy ===
/**
 * `_applyWindowOptions`: the caller's options that are defined are copied
 * onto the window component instance; everything else on the window keeps
 * its own value.
 */
module WindowOptions {
  import opened JsValues

  /** The options forwarded to the window, in the order they are visited. */
  const WindowOptionNames: seq<string> := ["backdrop", "keyboard", "size", "windowClass"]

  /** The options among `names` that `options` defines. */
  function DefinedAmong(options: Object, names: seq<string>): set<string> {
    set k | k in names && IsDefined(Get(options, k))
  }

  /** Visits `names` left to right, assigning each defined option onto the window. */
  function CopyDefined(window: Object, options: Object, names: seq<string>): (w: Object)
    ensures forall k :: Get(w, k) ==
              if k in names && IsDefined(Get(options, k)) then Get(options, k) else Get(window, k)
    ensures w.Keys == window.Keys + DefinedAmong(options, names)
    decreases |names|
  {
    if names == [] then window
    else
      var name := names[0];
      var w' := if IsDefined(Get(options, name)) then window[name := Get(options, name)] else window;
      assert forall k :: k in names <==> k == name || k in names[1..];
      CopyDefined(w', options, names[1..])
  }

  function ApplyWindowOptions(window: Object, options: Object): (w: Object)
    // a defined option overwrites the window's field
    ensures forall k | k in WindowOptionNames && IsDefined(Get(options, k)) :: Get(w, k) == Get(options, k)
    // an undefined option leaves the window's value, and no other field is touched
    ensures forall k | !(k in WindowOptionNames && IsDefined(Get(options, k))) :: Get(w, k) == Get(window, k)
    ensures w.Keys == window.Keys + DefinedAmong(options, WindowOptionNames)
  {
    CopyDefined(window, options, WindowOptionNames)
  }

  /** Applying the same options a second time changes nothing. */
  lemma ApplyWindowOptionsIdempotent(window: Object, options: Object)
    ensures ApplyWindowOptions(ApplyWindowOptions(window, options), options) == ApplyWindowOptions(window, options)
  {
    var once := ApplyWindowOptions(window, options);
    var twice := ApplyWindowOptions(once, options);
    assert twice.Keys == once.Keys;
    forall k | k in once
      ensures twice[k] == once[k]
    {
      assert Get(twice, k) == Get(once, k);
    }
  }
}
